=== FILE: README.md ===
# Ecement core in Dafny

Ecement composites photographs of one scene, each lit by a single light
source, into a new picture. Each photograph is turned into a *light vector*:
a buffer of linear radiance. The picture is the sum of the vectors, each
scaled by an RGB intensity, shown through a *response curve*. This project
models the compositing core of that program and proves properties of the
model. Values are Dafny `real`s where the program uses `float32`.

The modules follow the program's files:

- `Light` (light.dfy): RGB triples, pixel buffers, the pixel-wise
  compositing pass (`front + weight * vector`) and the weighted sum
  `Composite` that every accumulation buffer is meant to hold.
- `ResponseCurve` (response_curve.dfy), from responseFunctions.go and
  libcement.go. It covers the squared Finverse table, the square-root
  default curve, and the numeric inversion `FinverseToF`: nearest sample,
  interval toward the closer neighbour, interpolation, clamp at zero. It
  also has a clamped linear lookup into a curve, which stands in for the
  tone-mapping shader (see "Left out").
- `Cement` (cement.dfy), from libcement.go. It has the Painting and the
  Rendering, with `NewPainting`, `Load`, `CreateRendering`, the incremental
  `Update` with its front/back swap, and `Tonemap`. The session invariant
  `Valid` says the front buffer equals the sum of every vector times its
  current intensity.
- `PingPong` (ping_pong.dfy), from render.go. It has the two-buffer
  full-recompute renderer and its read/write parity.
- `Images` (images.dfy), from image.go. It covers the vertical row flip at
  load and save, the size check, which reference each image is
  preprocessed against, abort-on-first-error, and 8-bit packing with
  saturation and opaque alpha.
- `Outcomes` (outcomes.dfy) and `RealArith` (real_arith.dfy) are shared
  result types and small lemmas about real arithmetic.

Where libcement.go does not compile as written, the model follows the
evident intent:

- `r.Texture` is the front buffer.
- `Update` takes the requested intensities as a parameter.
- `createSqrtF` returns its table.

The model follows the code in two places where a background image might be
expected to play a part:

- The front buffer is cleared to black (libcement.go:102-108), and no
  background term is added to it.
- Image 0 is an ordinary light vector. With background removal it is also
  the reference for the images after it (image.go:94-97). The painting's
  `Background` field is never read.

## Model

| member | source | states |
|---|---|---|
| `Light.Pass` | libcement.go:143-155 | One compositing pass produces a buffer of the same size as the front buffer it reads. |
| `Light.CompositeOfBlack` | libcement.go:102-112 | With every intensity zero, the weighted sum is a black buffer. So a front buffer cleared to black already holds the sum for all-zero intensities. |
| `Light.CompositeReplace` | libcement.go:135-155 | A pass that adds (new - old) * vector i to the sum for intensities w yields exactly the sum for w with entry i changed to new. |
| `Light.CompositeExtend` | render.go:38-53 | A pass that adds x * vector k to the sum of the first k vectors yields the sum of the first k + 1 vectors with weight x last. |
| `ResponseCurve.StrictlyIncreasingPairs` | responseFunctions.go:8 | In a table whose adjacent entries increase, every earlier entry is smaller than every later one. |
| `ResponseCurve.SquaredStepIsSquare` | responseFunctions.go:12 | The inversion target for output index i is the square of i/(n-1). |
| `ResponseCurve.SquaredFinverse` | responseFunctions.go:50-56 | The table has `size` entries, and entry i is the inversion target for index i. For size >= 2 it starts at 0, ends at 1, increases strictly and stays in [0,1]. |
| `ResponseCurve.SquaredFinverseIsSquare` | responseFunctions.go:50-56 | Entry i of the squared table is (i/(size-1))². |
| `ResponseCurve.SqrtF` | libcement.go:50-55 | The table has `size` entries. Each entry is a non-negative number whose square is i/(size-1). It runs from 0 to 1 and increases strictly. |
| `ResponseCurve.SqrtInvertsSquared` | libcement.go:53 | The square root of entry i of the squared table is i/(n-1), so the default curve undoes the squared ramp. |
| `ResponseCurve.ScanFrom` | responseFunctions.go:16-19 | Continuing the scan gives an index at least as close to the target as every sample, and strictly closer than every earlier sample: the first arg-min. |
| `ResponseCurve.Nearest` | responseFunctions.go:16-19 | The anchor is the first index minimising the distance to the target. Ties go to the earliest index. |
| `ResponseCurve.NearestFindsSample` | responseFunctions.go:16-19 | In a strictly increasing table, the nearest sample to entry i is i itself. |
| `ResponseCurve.Interval` | responseFunctions.go:20-35 | The interval is two adjacent indices inside the table, with the anchor at one end. It lies below the anchor exactly when a lower neighbour exists and is strictly closer than the upper one, or no upper neighbour exists. Ties go up. |
| `ResponseCurve.IntervalAtSample` | responseFunctions.go:20-35 | Take a table whose rises grow, with the target at sample i. The interval is (i-1, i), or (0, 1) when i = 0. |
| `ResponseCurve.SquaredRisesGrow` | responseFunctions.go:50-56 | At every inner index of the squared table, the rise into the entry is smaller than the rise out of it. |
| `ResponseCurve.InterpolateAtEnds` | responseFunctions.go:39-40 | With the slope scaled by s, interpolation yields the low index at the low sample, and the low index + 1/s at the high sample. |
| `ResponseCurve.InvertedEntry` | responseFunctions.go:12-45 | An output entry is never negative: the interpolated index is clamped at zero before it is normalised. |
| `ResponseCurve.FinverseToF` | responseFunctions.go:9-48 | Inverting a strictly increasing table gives a table of the same length with non-negative entries. |
| `ResponseCurve.InvertedEntryAtSample` | responseFunctions.go:16-45 | In a strictly increasing table whose rise grows at i, with the target at entry i, the output is 0 for i = 0 and otherwise ((i-1) + 1/s)/(n-1) for slope scale s. |
| `ResponseCurve.InvertedSquaredEntry` | responseFunctions.go:12-56 | The same closed form, for the inversion of the squared table. |
| `ResponseCurve.InvertSquaredAsWritten` | responseFunctions.go:12-45 | Inverting the squared table as written gives 0 at index 0 and i/(n-1) - 1/n at every later index. Every entry is within one sample step 1/(n-1) of i/(n-1). |
| `ResponseCurve.InvertSquaredThreeSamples` | responseFunctions.go:39-40 | For a 3-entry squared table, entry 1 of the inversion as written is 1/6, where the identity curve has 1/2. |
| `ResponseCurve.InvertSquaredIncreasing` | responseFunctions.go:9-56 | Inverting the default squared table as written gives a strictly increasing F, so on that table F is the monotone curve it is meant to be. |
| `ResponseCurve.InversionNotMonotone` | responseFunctions.go:16-45 | On the strictly increasing table [0, 0.01, 0.3, 1], the nearest sample to target 1/9 is index 1, the interval is (0, 1), and the target 4/9 gets interval (1, 2). F entry 1 is then 25/27 and entry 2 is 1435/3132, so F decreases there. With the corrected slope the entries are 100/27 and 652/783, so F decreases there too. |
| `ResponseCurve.FinverseToFCorrected` | responseFunctions.go:39-45 | The inversion with the slope measured per index step keeps the length and non-negativity. |
| `ResponseCurve.InvertSquaredCorrected` | responseFunctions.go:39-45 | With the corrected slope, inverting the squared table gives exactly i/(n-1) at every index. |
| `ResponseCurve.CorrectedInverseIsLinear` | responseFunctions.go:9-56 | With the corrected slope, the inverse of the squared table is the identity curve. |
| `ResponseCurve.Clamp01` | libcement.go:168-175 | The clamped value lies in [0,1], and values already in [0,1] are unchanged. |
| `ResponseCurve.Locate` | libcement.go:168-175 | A lookup position splits into an interval index below n-1 and a fraction in [0,1] that add up to the clamped input times (n-1). |
| `ResponseCurve.Lookup` | libcement.go:168-175 | Reading a table whose entries lie in [0,1] gives a value in [0,1]. |
| `ResponseCurve.LookupAtSample` | libcement.go:168-175 | Reading at sample position k/(n-1) returns entry k exactly. |
| `ResponseCurve.LinearRamp` | libcement.go:168-175 | The identity curve has n entries, all in [0,1]. |
| `ResponseCurve.LookupLinear` | libcement.go:168-175 | Reading through the identity curve is the same as clamping to [0,1]. |
| `Cement.NewPainting` | libcement.go:57-63 | A given response curve is kept unchanged. A missing one becomes the 4096-entry default: non-negative square roots of i/4095, running from 0 to 1, strictly increasing. |
| `Cement.Load` | libcement.go:65-81 | A painting without images is an EmptyPainting error. A failure to read the first image's size is passed on. Otherwise loading succeeds exactly when every image loads at that size. The painting then keeps its curve and has one vector of that size per image: vector i is image i flipped and preprocessed against black (image 0, or any image without background removal) or against vector 0. On failure, the error is that of the first image that failed. |
| `Cement.Initial` | libcement.go:83-108 | A new rendering has one zero intensity per vector and records width and height. Its black front buffer already satisfies the session invariant. |
| `Cement.UpdateChannel` | libcement.go:130-160 | A channel already at its target leaves the rendering unchanged and makes no pass. Otherwise there is one pass with diff = target - current. The back buffer becomes front + diff * vector and then the front, while the old front becomes the back. The invariant is kept, and only that channel's intensity changes. |
| `Cement.Update` | libcement.go:116-162 | Afterwards every intensity equals the requested one. The invariant holds, so the front buffer is the sum of requested intensity times vector. The passes are exactly PassList. There are none, and nothing changes, exactly when the request equals the current intensities, so a repeated update does nothing. |
| `Cement.PassListFacts` | libcement.go:129-161 | The passes are exactly the changed channels, each once, in increasing order. Each carries its channel's requested-minus-current difference. |
| `Cement.PassListEmpty` | libcement.go:129-133 | No pass is made exactly when no channel changed. |
| `Cement.CreateRendering` | libcement.go:83-114 | A new rendering brought to the requested intensities satisfies the invariant and records the size. It draws exactly the channels whose requested intensity is not zero. |
| `Cement.Tonemap` | libcement.go:168-175 | Tone mapping reads only the front buffer and produces one display pixel per pixel. With a curve in [0,1], every display channel is in [0,1]. |
| `Cement.TonemapIdentity` | libcement.go:168-175 | With the identity curve, every display channel is the accumulated value clamped to [0,1]. |
| `PingPong.FramebufferPair` | render.go:12-27 | The pair is exactly two buffers, each of width * height pixels. |
| `PingPong.WriteIndex` | render.go:51 | Pass i draws into buffer 0 or 1. |
| `PingPong.ReadIndex` | render.go:44 | Pass i reads the buffer it does not write, which is the one pass i-1 wrote. |
| `PingPong.Render` | render.go:29-55 | The returned buffer is the one the last pass wrote. It equals the sum of every vector times its intensity, whatever the two buffers held before. |
| `Images.FlipRow` | image.go:52 | The flipped row lies inside the image, and flipping it again gives the original row back. |
| `Images.Flipped` | image.go:50-54 | The flipped image has the same size, and source row j appears as row height-(j+1). |
| `Images.FlippedInvolution` | image.go:144 | Flipping twice restores the image, so the flip at save undoes the flip at load. |
| `Images.CopyFlipped` | image.go:50-54 | Writing every source pixel (k, j) to (k, height-(j+1)) overwrites the whole destination with the flipped source. |
| `Images.LoadImage` | image.go:32-56 | A decode error is passed on, and an image of a different width or height gives SizeMismatch. In both cases the buffer is untouched. Otherwise the buffer holds the image flipped. |
| `Images.LoadImages` | image.go:58-123 | Loading succeeds exactly when every image decodes at the painting's size. The texture bound to unit 1 starts black and, with background removal, is rebound once to vector 0 before image 1 is preprocessed; the loop proves that this binding amounts to the per-index rule `ReferenceFor`: image 0 and, without background removal, every image against black, every later image against vector 0. Vector i is the preprocessed flipped image i against that reference. Otherwise the error is that of the first image that fails, and all earlier images loaded. |
| `Images.Channel` | image.go:131-142 | A channel of 1 or more packs to 255. A channel in [0,1] packs to the floor of c * 255. |
| `Images.ChannelMonotone` | image.go:131-145 | A brighter channel never packs to a smaller byte. |
| `Images.SaveToJPEG` | image.go:125-165 | Data pixel (i, j) lands at output row height-(i+1), column j, with each colour channel packed into 8 bits and alpha 255. Every output pixel is opaque, so no pixel of the blank raster survives. Failing to create the file gives CreateFailed. An encoder failure gives EncodeFailed. |

## Left out

- OpenGL: textures, framebuffers, viewports, draw calls and the `checkGLError` panic (libcement.go:177-183). A draw is modelled as the pure pass in `Light.Pass`.
- The GLSL shaders are not part of this model. The compositing pass follows the documented behaviour `front + diff * vector`. The tone mapper is modelled as a clamped linear lookup into F. The preprocessing shader is the `preprocess` parameter of `Images.LoadImages` and `Cement.Load`.
- shader_prog.go, sincos.go and Ecement.go (window, main loop, timing, argument count, background save goroutine) are not part of this model.
- File access, image decoding and JPEG encoding. Their outcomes are parameters: a decoded raster or an error per image, the first image's size or an error, and whether the output file was created and encoded.
- `float32` rounding: all values are exact reals.
- `inverseF` (libcement.go:34-47) has an empty loop and no return. It is not modelled.
- The painting's `Background` field is never read by the code and is not modelled. Neither is the unused `ceiling` parameter of `Tonemap`.
- `ResponseCurve.FinverseToF`: requires a strictly increasing table of length other than 1. A repeated entry would divide by zero, and a single-entry table divides 0 by 0.
- `ResponseCurve.FinverseToF`: does not promise that F is monotone, because it is not in general. The interval test (responseFunctions.go:29-35) takes the neighbour closer to the target, not the side the target lies on, so a target just above a sample can be extrapolated past it from the interval below. `ResponseCurve.InversionNotMonotone` exhibits a strictly increasing table whose F decreases. `ResponseCurve.FinverseToFCorrected` keeps the same interval choice and decreases on that table too. Monotonicity is proved only for the default squared table (`ResponseCurve.InvertSquaredIncreasing`).
- `ResponseCurve.SquaredFinverse`: requires size other than 1. `createSquaredFinverse(1)` computes 0/0 and returns a single NaN, which has no real counterpart.
- `ResponseCurve.SqrtF`: requires size other than 1 for the same 0/0 reason. `math.Sqrt` is the `root` parameter.
- `Images.Channel`: a negative channel converted to `uint8` is implementation-defined in Go. The model maps it to 0 and states nothing about it.
- `Images.LoadImages`: textures created for images before a failing one stay allocated on the device. The model returns only the error.
- `Cement.CreateRendering`: requires the vectors to have the rendering's pixel count. Texture filtering when the window size differs from the image size is not modelled.
- `PingPong.Render`: requires at least one vector. With none, Go computes `(0-1)%2` as -1, and indexing `framebuffers[-1]` panics.
- `Cement.Tonemap`: the code binds only the front buffer (libcement.go:168-175); the response curve is never read after `NewPainting`. Reading each channel through `painting.responseF` with a clamped linear lookup is the model's reading of the tone-mapping shader, which is not part of this model.
- `Cement.Tonemap`: assumes the draw goes to a target other than `FB`. The comment at libcement.go:164-167 allows binding `FB`, but `FB`'s colour attachment is always the current front buffer (set at libcement.go:106 and :154, then swapped in at :158-160), so that draw would write into the texture it samples and overwrite the front buffer.
- `Cement.Update`: states the buffer swap per pass through `Cement.UpdateChannel`, not as a property of the whole call.

## Findings

| source | as written | input that shows it | evidently intended | confidence | as-written member | corrected member |
|---|---|---|---|---|---|---|
| responseFunctions.go:39-40 | The slope is the interval's rise times the table length, so the interpolated index fraction is divided by n. Entry i > 0 of the inverse of the squared table comes out as i/(n-1) - 1/n. | `FinverseToF(SquaredFinverse(3))`: entry 1 is 1/6 | The rise per index step as the slope. Entry 1 is then 1/2, and entry i is i/(n-1) at every index. | medium, not executed | `ResponseCurve.InvertSquaredThreeSamples` | `ResponseCurve.InvertSquaredCorrected` |

=== FILE: cement.dfy ===
/**
 The compositing session of libcement.go. A Painting holds the loaded light
 vectors and the response curve F. A Rendering holds the intensity last
 applied to each vector and a front/back pair of accumulation buffers.
 Update adds only the change of each channel whose intensity moved, one pass
 per changed channel, and swaps the buffers after each pass. So the front
 buffer always holds the sum of every vector times its current intensity.

 Where libcement.go names a field that does not exist, the evident intent is
 modelled instead. Writes to `r.Texture` are writes to the front buffer.
 Update takes the requested intensities as a parameter rather than reading
 them through the painting.
 */
module Cement {
  import opened Outcomes
  import opened Light
  import opened RealArith
  import opened ResponseCurve
  import Images

  /** The light vectors of one session and the forward response curve F. */
  datatype Painting = Painting(vectors: seq<Buffer>, responseF: seq<real>)

  /**
   The mutable session state. curr[i] is the intensity vector i was last
   composited at. front is the accumulation buffer shown to the tone mapper,
   and back is the buffer the next pass writes into.
   */
  datatype Rendering = Rendering(
    painting: Painting, curr: seq<RGB>, front: Buffer, back: Buffer, width: nat, height: nat)

  /** Pixel count of the rendering's buffers. */
  function Size(r: Rendering): nat {
    r.width * r.height
  }

  /**
   The session invariant. There is one intensity per vector, and every buffer
   has the rendering's size. The front buffer holds the sum of each vector
   times its current intensity.
   */
  predicate Valid(r: Rendering) {
    && |r.curr| == |r.painting.vectors|
    && Uniform(r.painting.vectors, Size(r))
    && |r.front| == Size(r)
    && |r.back| == Size(r)
    && r.front == Composite(r.curr, r.painting.vectors, Size(r))
  }

  /** Entry count of the default response curve. */
  const DefaultCurveSize: nat := 4096

  /**
   A painting with no vectors loaded yet. A given response curve is kept as
   it is. Without one, the default curve is used: the square roots of a
   4096-sample ramp. root stands for the square root of the host platform.
   */
  function NewPainting(responseF: Option<seq<real>>, root: real -> real): (p: Painting)
    requires IsSquareRoot(root)
    ensures p.vectors == []
    ensures responseF.Some? ==> p.responseF == responseF.value
    ensures responseF.None? ==>
      && |p.responseF| == DefaultCurveSize
      && p.responseF[0] == 0.0 && p.responseF[DefaultCurveSize - 1] == 1.0
      && StrictlyIncreasing(p.responseF)
      && forall i :: 0 <= i < DefaultCurveSize ==>
           0.0 <= p.responseF[i] && Square(p.responseF[i]) == Ratio(i, DefaultCurveSize - 1)
  {
    match responseF
    case Some(table) => Painting([], table)
    case None => Painting([], SqrtF(DefaultCurveSize, root))
  }

  /**
   Loads the painting's source images. A painting without images is an
   error. So is a first image whose dimensions cannot be read; they come in
   as firstSize. Otherwise every image is loaded at those dimensions, as
   Images.LoadImages does, and the light vectors it produces become the
   painting's vectors.
   */
  method Load(p: Painting, decoded: seq<Result<Images.Raster<Images.NRGBA>>>, firstSize: Result<(nat, nat)>,
              removeBackground: bool, preprocess: (Images.Raster<Images.NRGBA>, Images.Reference) -> Buffer)
    returns (result: Result<Painting>)
    requires forall i :: 0 <= i < |decoded| && decoded[i].Ok? ==> Images.WellFormed(decoded[i].value)
    requires forall img, ref :: |preprocess(img, ref)| == img.width * img.height
    ensures |decoded| == 0 ==> result == Err(EmptyPainting)
    ensures 0 < |decoded| && firstSize.Err? ==> result == Err(firstSize.error)
    ensures result.Ok? <==>
      && 0 < |decoded| && firstSize.Ok?
      && forall i :: 0 <= i < |decoded| ==> Images.Loads(decoded[i], firstSize.value.0, firstSize.value.1)
    ensures result.Ok? ==>
      && result.value.responseF == p.responseF
      && |result.value.vectors| == |decoded|
      && Uniform(result.value.vectors, firstSize.value.0 * firstSize.value.1)
      && forall i :: 0 <= i < |decoded| ==>
           result.value.vectors[i] ==
             preprocess(Images.Flipped(decoded[i].value),
                        Images.ReferenceFor(i, removeBackground, result.value.vectors[0]))
    ensures result.Err? && 0 < |decoded| && firstSize.Ok? ==>
      exists i :: Images.FirstFailure(decoded, firstSize.value.0, firstSize.value.1, i, result.error)
  {
    if |decoded| == 0 {
      return Err(EmptyPainting);
    }
    if firstSize.Err? {
      return Err(firstSize.error);
    }
    var (width, height) := firstSize.value;
    var vectors := Images.LoadImages(decoded, width, height, removeBackground, preprocess);
    if vectors.Err? {
      return Err(vectors.error);
    }
    forall i | 0 <= i < |vectors.value|
      ensures |vectors.value[i]| == width * height
    {
      assert Images.Loads(decoded[i], width, height);
    }
    result := Ok(p.(vectors := vectors.value));
  }

  /**
   A fresh rendering before its first update. Every intensity is zero and
   the front buffer is cleared to black, so the session invariant already
   holds. The back buffer's contents are undefined on the device; black
   stands in for them, and nothing depends on it.
   */
  function Initial(p: Painting, width: nat, height: nat): (r: Rendering)
    requires Uniform(p.vectors, width * height)
    ensures Valid(r)
    ensures r.painting == p && r.width == width && r.height == height
    ensures |r.curr| == |p.vectors| && forall i :: 0 <= i < |r.curr| ==> r.curr[i] == Black
  {
    var curr := seq(|p.vectors|, _ => Black);
    CompositeOfBlack(curr, p.vectors, width * height);
    Rendering(p, curr, Blank(width * height), Blank(width * height), width, height)
  }

  /** One compositing pass of Update: the channel drawn and the intensity change it added. */
  datatype Step = Step(channel: nat, diff: RGB)

  /** The channels of a list of passes, in order. */
  function Channels(steps: seq<Step>): (c: seq<nat>)
    ensures |c| == |steps|
    ensures forall k :: 0 <= k < |steps| ==> c[k] == steps[k].channel
  {
    seq(|steps|, k requires 0 <= k < |steps| => steps[k].channel)
  }

  /**
   steps is the pass list Update produces for the channels below i when
   going from intensities curr to requested: the changed channels in
   increasing order, each with its intensity difference.
   */
  predicate PassesFor(steps: seq<Step>, curr: seq<RGB>, requested: seq<RGB>, i: nat)
    requires i <= |curr| == |requested|
  {
    && (forall k :: 0 <= k < |steps| ==>
         && steps[k].channel < i
         && requested[steps[k].channel] != curr[steps[k].channel]
         && steps[k].diff == Sub(requested[steps[k].channel], curr[steps[k].channel]))
    && (forall j :: 0 <= j < i ==> (j in Channels(steps) <==> requested[j] != curr[j]))
    && (forall a, b :: 0 <= a < b < |steps| ==> steps[a].channel < steps[b].channel)
  }

  /**
   The passes Update makes over channels 0 .. i-1: one per changed channel,
   in index order, each carrying that channel's intensity difference.
   */
  function PassList(curr: seq<RGB>, requested: seq<RGB>, i: nat): (steps: seq<Step>)
    requires i <= |curr| == |requested|
    decreases i
  {
    if i == 0 then []
    else
      var j := i - 1;
      PassList(curr, requested, j) + (if requested[j] != curr[j] then [Step(j, Sub(requested[j], curr[j]))] else [])
  }

  /** The pass list holds exactly the changed channels, in increasing order, with their differences. */
  lemma {:induction false} PassListFacts(curr: seq<RGB>, requested: seq<RGB>, i: nat)
    requires i <= |curr| == |requested|
    ensures PassesFor(PassList(curr, requested, i), curr, requested, i)
    decreases i
  {
    if i > 0 {
      var j := i - 1;
      var prev := PassList(curr, requested, j);
      PassListFacts(curr, requested, j);
      assert j !in Channels(prev);
      if requested[j] != curr[j] {
        var steps := prev + [Step(j, Sub(requested[j], curr[j]))];
        assert Channels(steps) == Channels(prev) + [j];
      } else {
        assert PassList(curr, requested, i) == prev;
      }
    }
  }

  /** No pass is made exactly when no channel changed. */
  lemma {:induction false} PassListEmpty(curr: seq<RGB>, requested: seq<RGB>, i: nat)
    requires i <= |curr| == |requested|
    ensures PassList(curr, requested, i) == [] <==> curr[..i] == requested[..i]
    decreases i
  {
    if i > 0 {
      var j := i - 1;
      PassListEmpty(curr, requested, j);
      assert curr[..i] == curr[..j] + [curr[j]];
      assert requested[..i] == requested[..j] + [requested[j]];
    }
  }

  /** Taking one more entry of the requested intensities into the current ones. */
  lemma SpliceStep(requested: seq<RGB>, curr: seq<RGB>, i: nat)
    requires i < |requested| == |curr|
    ensures (requested[..i] + curr[i..])[i := requested[i]] == requested[..i + 1] + curr[i + 1..]
  {
    var lhs := (requested[..i] + curr[i..])[i := requested[i]];
    var rhs := requested[..i + 1] + curr[i + 1..];
    assert |lhs| == |rhs|;
    forall k | 0 <= k < |lhs|
      ensures lhs[k] == rhs[k]
    {
      if k < i { assert lhs[k] == requested[k]; }
      else if i < k { assert lhs[k] == curr[k]; }
    }
  }

  /**
   One iteration of Update, for channel i. If the channel's intensity
   already equals target, nothing happens. Otherwise one pass writes
   front + diff * vector[i] into the back buffer, where diff is target minus
   the current intensity. The intensity is recorded and the two buffers swap.
   */
  method UpdateChannel(r: Rendering, i: nat, target: RGB) returns (next: Rendering, step: Option<Step>)
    requires Valid(r)
    requires i < |r.curr|
    ensures Valid(next)
    ensures next.painting == r.painting && next.width == r.width && next.height == r.height
    ensures next.curr == r.curr[i := target]
    ensures step.None? <==> target == r.curr[i]
    ensures step.None? ==> next == r
    ensures step.Some? ==>
      && step.value == Step(i, Sub(target, r.curr[i]))
      && next.back == r.front
      && next.front == Pass(r.front, step.value.diff, r.painting.vectors[i])
  {
    if target == r.curr[i] {
      assert r.curr[i := target] == r.curr;
      return r, None;
    }
    var diff := Sub(target, r.curr[i]);
    CompositeReplace(r.curr, r.painting.vectors, Size(r), i, target);
    var written := Pass(r.front, diff, r.painting.vectors[i]);
    next := r.(curr := r.curr[i := target], front := written, back := r.front);
    step := Some(Step(i, diff));
  }

  /**
   Brings the rendering to the requested intensities, one channel at a time
   in index order (see UpdateChannel). Unchanged channels are skipped, and
   each changed channel gets exactly one pass. The passes taken are
   returned.
   */
  method Update(r: Rendering, requested: seq<RGB>) returns (next: Rendering, steps: seq<Step>)
    requires Valid(r)
    requires |requested| == |r.curr|
    ensures Valid(next)
    ensures next.painting == r.painting && next.width == r.width && next.height == r.height
    ensures next.curr == requested
    ensures next.front == Composite(requested, r.painting.vectors, Size(r))
    ensures steps == PassList(r.curr, requested, |requested|)
    ensures steps == [] <==> requested == r.curr
    ensures steps == [] ==> next == r
  {
    var n := |requested|;
    next := r;
    steps := [];
    for i := 0 to n
      invariant Valid(next)
      invariant next.painting == r.painting && next.width == r.width && next.height == r.height
      invariant next.curr == requested[..i] + r.curr[i..]
      invariant steps == PassList(r.curr, requested, i)
      invariant steps == [] ==> next == r
    {
      assert next.curr[i] == r.curr[i];
      SpliceStep(requested, r.curr, i);
      var step;
      next, step := UpdateChannel(next, i, requested[i]);
      if step.Some? {
        steps := steps + [step.value];
      }
    }
    assert next.curr == requested;
    PassListEmpty(r.curr, requested, n);
    assert r.curr[..n] == r.curr && requested[..n] == requested;
  }

  /**
   Creates a rendering of the painting at the given size and brings it to
   the requested intensities. Starting from all-zero intensities on a black
   front buffer, every channel with a non-zero intensity is drawn once.
   */
  method CreateRendering(p: Painting, width: nat, height: nat, requested: seq<RGB>)
    returns (r: Rendering, steps: seq<Step>)
    requires Uniform(p.vectors, width * height)
    requires |requested| == |p.vectors|
    ensures Valid(r)
    ensures r.painting == p && r.width == width && r.height == height
    ensures r.curr == requested
    ensures r.front == Composite(requested, p.vectors, width * height)
    ensures forall i :: 0 <= i < |requested| ==> (i in Channels(steps) <==> requested[i] != Black)
  {
    var start := Initial(p, width, height);
    r, steps := Update(start, requested);
    PassListFacts(start.curr, requested, |requested|);
  }

  /** The display value of one pixel: each channel read through the curve F. */
  function ToneMapPixel(responseF: seq<real>, x: RGB): RGB
    requires 2 <= |responseF|
  {
    RGB(Lookup(responseF, x.r), Lookup(responseF, x.g), Lookup(responseF, x.b))
  }

  /**
   The displayable image of a rendering: every pixel of the front buffer
   read through the response curve F. Only the front buffer is read.
   */
  function Tonemap(r: Rendering): (display: Buffer)
    requires 2 <= |r.painting.responseF|
    ensures |display| == |r.front|
    ensures InUnitRange(r.painting.responseF) ==> forall p :: 0 <= p < |display| ==>
      && 0.0 <= display[p].r <= 1.0 && 0.0 <= display[p].g <= 1.0 && 0.0 <= display[p].b <= 1.0
  {
    seq(|r.front|, p requires 0 <= p < |r.front| => ToneMapPixel(r.painting.responseF, r.front[p]))
  }

  /**
   With the identity curve, tone mapping only clamps: every displayed
   channel is the accumulated value clamped to [0, 1].
   */
  lemma TonemapIdentity(r: Rendering)
    requires 2 <= |r.painting.responseF|
    requires r.painting.responseF == LinearRamp(|r.painting.responseF|)
    ensures forall p :: 0 <= p < |r.front| ==>
      Tonemap(r)[p] == RGB(Clamp01(r.front[p].r), Clamp01(r.front[p].g), Clamp01(r.front[p].b))
  {
    var n := |r.painting.responseF|;
    forall p | 0 <= p < |r.front|
      ensures Tonemap(r)[p] == RGB(Clamp01(r.front[p].r), Clamp01(r.front[p].g), Clamp01(r.front[p].b))
    {
      LookupLinear(n, r.front[p].r);
      LookupLinear(n, r.front[p].g);
      LookupLinear(n, r.front[p].b);
    }
  }
}

=== FILE: images.dfy ===
/**
 The pixel mapping between decoded raster images and the engine's buffers
 (image.go). Covered here: the vertical row flip applied at load and at save,
 the size check of the loader, which reference each image is preprocessed
 against, the abort-on-first-error loop, and how output pixels are packed
 into 8 bits.

 Decoding, encoding and file access are not modelled. Their outcomes reach
 the model as parameters: a decoded raster or an error per image, and
 whether the output file could be created and encoded. The preprocessing
 shader is outside this model, so it is a function parameter too.
 */
module Images {
  import opened Outcomes
  import opened Light

  /** An 8-bit channel value. */
  type byte = x: int | 0 <= x < 256

  /** A non-premultiplied 8-bit RGBA colour. */
  datatype NRGBA = NRGBA(r: byte, g: byte, b: byte, a: byte)

  /** The zero colour a freshly allocated raster holds. */
  const Transparent := NRGBA(0, 0, 0, 0)

  /** A raster stored row by row. Row 0 is the top row in image coordinates. */
  datatype Raster<P> = Raster(width: nat, height: nat, rows: seq<seq<P>>)

  predicate WellFormed<P>(img: Raster<P>) {
    && |img.rows| == img.height
    && forall j :: 0 <= j < |img.rows| ==> |img.rows[j]| == img.width
  }

  predicate SameSize<P, Q>(a: Raster<P>, b: Raster<Q>) {
    a.width == b.width && a.height == b.height
  }

  /** A width x height raster with every pixel set to px. */
  function Filled<P>(width: nat, height: nat, px: P): (img: Raster<P>)
    ensures WellFormed(img)
    ensures img.width == width && img.height == height
    ensures forall j, k :: 0 <= j < height && 0 <= k < width ==> img.rows[j][k] == px
  {
    Raster(width, height, seq(height, _ => seq(width, _ => px)))
  }

  /** The raster with pixel (x, y) replaced by px. */
  function Set<P>(img: Raster<P>, x: nat, y: nat, px: P): (out: Raster<P>)
    requires WellFormed(img)
    requires x < img.width && y < img.height
    ensures WellFormed(out) && SameSize(out, img)
    ensures out.rows[y][x] == px
    ensures forall j, k :: 0 <= j < img.height && 0 <= k < img.width && (j, k) != (y, x) ==>
      out.rows[j][k] == img.rows[j][k]
  {
    img.(rows := img.rows[y := img.rows[y][x := px]])
  }

  /**
   The row that row j lands on when an image of the given height is flipped
   vertically. The map is its own inverse: flipping the result gives j back.
   */
  function FlipRow(height: nat, j: nat): (f: nat)
    requires j < height
    ensures f < height
    ensures height - (f + 1) == j
  {
    height - (j + 1)
  }

  /** The image upside down: row j of img becomes row FlipRow(height, j). */
  function Flipped<P>(img: Raster<P>): (out: Raster<P>)
    requires WellFormed(img)
    ensures WellFormed(out) && SameSize(out, img)
    ensures forall j :: 0 <= j < img.height ==> out.rows[FlipRow(img.height, j)] == img.rows[j]
  {
    Raster(img.width, img.height,
      seq(img.height, r requires 0 <= r < img.height => img.rows[FlipRow(img.height, r)]))
  }

  /** Flipping twice restores the image. */
  lemma FlippedInvolution<P>(img: Raster<P>)
    requires WellFormed(img)
    ensures Flipped(Flipped(img)) == img
  {
    var twice := Flipped(Flipped(img));
    forall r | 0 <= r < img.height
      ensures twice.rows[r] == img.rows[r]
    {
      assert r == FlipRow(img.height, FlipRow(img.height, r));
    }
  }

  /**
   Writes src into dst pixel by pixel, source row j going to row
   FlipRow(height, j), the way the load and save loops do. Every pixel of
   dst is overwritten, so the result is the flipped source.
   */
  method CopyFlipped<P>(src: Raster<P>, dst: Raster<P>) returns (out: Raster<P>)
    requires WellFormed(src) && WellFormed(dst) && SameSize(src, dst)
    ensures out == Flipped(src)
  {
    var h := src.height;
    out := dst;
    for j := 0 to h
      invariant WellFormed(out) && SameSize(out, src)
      invariant forall jj :: 0 <= jj < j ==> out.rows[FlipRow(h, jj)] == src.rows[jj]
    {
      for k := 0 to src.width
        invariant WellFormed(out) && SameSize(out, src)
        invariant forall jj :: 0 <= jj < j ==> out.rows[FlipRow(h, jj)] == src.rows[jj]
        invariant forall kk :: 0 <= kk < k ==> out.rows[FlipRow(h, j)][kk] == src.rows[j][kk]
      {
        out := Set(out, k, FlipRow(h, j), src.rows[j][k]);
      }
      assert out.rows[FlipRow(h, j)] == src.rows[j];
    }
    forall r | 0 <= r < h
      ensures out.rows[r] == Flipped(src).rows[r]
    {
      assert r == FlipRow(h, FlipRow(h, r));
    }
  }

  /** Whether a decoded image can be loaded into a width x height buffer. */
  predicate Loads(decoded: Result<Raster<NRGBA>>, width: nat, height: nat) {
    decoded.Ok? && decoded.value.width == width && decoded.value.height == height
  }

  /** The error reported for an image that does not load. */
  function LoadError(decoded: Result<Raster<NRGBA>>, width: nat, height: nat): (e: Error)
    requires !Loads(decoded, width, height)
    ensures decoded.Err? ==> e == decoded.error
    ensures decoded.Ok? ==> e == SizeMismatch
  {
    if decoded.Err? then decoded.error else SizeMismatch
  }

  /**
   Loads one decoded image into the shared pixel buffer dst. A decode error
   is passed on. An image whose width or height differs from dst's gives a
   size error. In both cases dst is left as it was. Otherwise the image is
   stored upside down.
   */
  method LoadImage(decoded: Result<Raster<NRGBA>>, dst: Raster<NRGBA>)
    returns (status: Outcome, pixels: Raster<NRGBA>)
    requires WellFormed(dst)
    requires decoded.Ok? ==> WellFormed(decoded.value)
    ensures status.Success? <==> Loads(decoded, dst.width, dst.height)
    ensures status.Failure? ==> status.error == LoadError(decoded, dst.width, dst.height) && pixels == dst
    ensures status.Success? ==> pixels == Flipped(decoded.value)
  {
    if decoded.Err? {
      return Failure(decoded.error), dst;
    }
    var img := decoded.value;
    if img.width != dst.width || img.height != dst.height {
      return Failure(SizeMismatch), dst;
    }
    pixels := CopyFlipped(img, dst);
    status := Success;
  }

  /**
   What an image is preprocessed against. The base image is loaded against a
   1x1 black texture, so nothing is subtracted from it. Later images are
   loaded against the base image's light vector when the background is to be
   removed, and against black otherwise.
   */
  datatype Reference = BlackTexture | BaseVector(vector: Buffer)

  function ReferenceFor(i: nat, removeBackground: bool, base: Buffer): (ref: Reference)
    ensures ref.BaseVector? <==> 1 <= i && removeBackground
    ensures ref.BaseVector? ==> ref.vector == base
  {
    if 1 <= i && removeBackground then BaseVector(base) else BlackTexture
  }

  /**
   Loads every image of a painting in order, through one shared pixel buffer,
   and preprocesses each into a light vector. Loading stops at the first
   image that fails, and that image's error is returned. The reference is the
   texture bound to unit 1: black at first, rebound once to the base image's
   vector just before image 1 is preprocessed when the background is to be
   removed, and left bound for every later image.
   */
  method LoadImages(decoded: seq<Result<Raster<NRGBA>>>, width: nat, height: nat,
                    removeBackground: bool, preprocess: (Raster<NRGBA>, Reference) -> Buffer)
    returns (result: Result<seq<Buffer>>)
    requires forall i :: 0 <= i < |decoded| && decoded[i].Ok? ==> WellFormed(decoded[i].value)
    ensures result.Ok? <==> forall i :: 0 <= i < |decoded| ==> Loads(decoded[i], width, height)
    ensures result.Ok? ==>
      && |result.value| == |decoded|
      && forall i :: 0 <= i < |decoded| ==>
           && Loads(decoded[i], width, height)
           && result.value[i] ==
                preprocess(Flipped(decoded[i].value), ReferenceFor(i, removeBackground, result.value[0]))
    ensures result.Err? ==> exists i :: FirstFailure(decoded, width, height, i, result.error)
  {
    var pixelBuf := Filled(width, height, Transparent);
    var vectors: seq<Buffer> := [];
    var bound := BlackTexture;
    for i := 0 to |decoded|
      invariant WellFormed(pixelBuf) && pixelBuf.width == width && pixelBuf.height == height
      invariant |vectors| == i
      invariant i < 2 ==> bound == BlackTexture
      invariant 2 <= i ==> bound == ReferenceFor(i, removeBackground, vectors[0])
      invariant forall k :: 0 <= k < i ==>
        && Loads(decoded[k], width, height)
        && vectors[k] == preprocess(Flipped(decoded[k].value), ReferenceFor(k, removeBackground, vectors[0]))
    {
      var status;
      status, pixelBuf := LoadImage(decoded[i], pixelBuf);
      if status.Failure? {
        assert FirstFailure(decoded, width, height, i, status.error);
        return Err(status.error);
      }
      if i == 1 && removeBackground {
        bound := BaseVector(vectors[0]);
      }
      var vector := preprocess(pixelBuf, bound);
      vectors := vectors + [vector];
    }
    result := Ok(vectors);
  }

  /** Image i is the first that does not load, and e is its error. */
  predicate FirstFailure(decoded: seq<Result<Raster<NRGBA>>>, width: nat, height: nat, i: int, e: Error) {
    && 0 <= i < |decoded|
    && (forall k :: 0 <= k < i ==> Loads(decoded[k], width, height))
    && !Loads(decoded[i], width, height)
    && e == LoadError(decoded[i], width, height)
  }

  /** A tone-mapped pixel as handed to the encoder, one real per channel. */
  datatype Pixel = Pixel(r: real, g: real, b: real, a: real)

  /**
   One channel packed into 8 bits: scaled by 255, capped at 255 and
   truncated. Inside [0, 1] the result is the floor of c * 255.
   */
  function Channel(c: real): (v: byte)
    ensures 1.0 <= c ==> v == 255
    ensures 0.0 <= c <= 1.0 ==> v as real <= c * 255.0 < v as real + 1.0
  {
    var scaled := c * 255.0;
    var capped := if scaled > 255.0 then 255.0 else scaled;
    if capped < 0.0 then 0 else capped.Floor
  }

  /** A brighter channel never packs to a smaller byte. */
  lemma ChannelMonotone(a: real, b: real)
    requires 0.0 <= a <= b
    ensures Channel(a) <= Channel(b)
  {
    assert a * 255.0 <= b * 255.0;
  }

  /** The output colour of a pixel: channels packed, alpha always opaque. */
  function Encode(px: Pixel): NRGBA
  {
    NRGBA(Channel(px.r), Channel(px.g), Channel(px.b), 255)
  }

  /** Pixel (i, j) of a row-major width x height buffer lies inside it. */
  lemma RowMajorIndex(i: nat, j: nat, width: nat, height: nat)
    requires i < height && j < width
    ensures i * width + j < height * width
  {
    assert i * width + j < (i + 1) * width;
    assert (i + 1) * width <= height * width;
  }

  /** The row-major pixel data encoded in its own row order, before the flip. */
  function Packed(width: nat, height: nat, data: seq<Pixel>): (img: Raster<NRGBA>)
    requires width * height <= |data|
    ensures WellFormed(img) && img.width == width && img.height == height
    ensures forall i, j :: 0 <= i < height && 0 <= j < width ==>
      (RowMajorIndex(i, j, width, height); img.rows[i][j] == Encode(data[i * width + j]))
  {
    Raster(width, height, seq(height, i requires 0 <= i < height =>
      seq(width, j requires 0 <= j < width =>
        RowMajorIndex(i, j, width, height); Encode(data[i * width + j]))))
  }

  /**
   Packs a width x height buffer of pixels into an 8-bit raster with the row
   order reversed, then writes it out. The raster is the result unless the
   output file cannot be created or the encoder fails.
   */
  method SaveToJPEG(width: nat, height: nat, data: seq<Pixel>, created: bool, encoded: bool)
    returns (result: Result<Raster<NRGBA>>)
    requires width * height <= |data|
    ensures result.Ok? <==> created && encoded
    ensures !created ==> result == Err(CreateFailed)
    ensures created && !encoded ==> result == Err(EncodeFailed)
    ensures result.Ok? ==>
      && WellFormed(result.value) && result.value.width == width && result.value.height == height
      && (forall i, j :: 0 <= i < height && 0 <= j < width ==>
            (RowMajorIndex(i, j, width, height);
             var px := data[i * width + j];
             result.value.rows[FlipRow(height, i)][j] == NRGBA(Channel(px.r), Channel(px.g), Channel(px.b), 255)))
      && (forall y, x :: 0 <= y < height && 0 <= x < width ==> result.value.rows[y][x].a == 255)
  {
    var output := Filled(width, height, Transparent);
    output := CopyFlipped(Packed(width, height, data), output);
    if !created {
      return Err(CreateFailed);
    }
    if !encoded {
      return Err(EncodeFailed);
    }
    result := Ok(output);
  }
}

=== FILE: light.dfy ===
/**
 Linear light: RGB triples over the reals, pixel buffers, the compositing
 pass the cement shader performs, and the weighted sum that every
 accumulation buffer is supposed to hold.
 */
module Light {

  /** One linear-radiance RGB triple, or one per-channel intensity. */
  datatype RGB = RGB(r: real, g: real, b: real)

  const Black: RGB := RGB(0.0, 0.0, 0.0)

  function Add(x: RGB, y: RGB): RGB {
    RGB(x.r + y.r, x.g + y.g, x.b + y.b)
  }

  function Sub(x: RGB, y: RGB): RGB {
    RGB(x.r - y.r, x.g - y.g, x.b - y.b)
  }

  /** Component-wise product: an intensity triple applied to a pixel. */
  function Scale(w: RGB, x: RGB): RGB {
    RGB(w.r * x.r, w.g * x.g, w.b * x.b)
  }

  /** A width*height image of linear light, row-major. */
  type Buffer = seq<RGB>

  /** A buffer cleared to black. */
  function Blank(size: nat): (b: Buffer)
    ensures |b| == size
    ensures forall p :: 0 <= p < size ==> b[p] == Black
  {
    seq(size, _ => Black)
  }

  /** Every buffer in `vectors` holds exactly `size` pixels. */
  predicate Uniform(vectors: seq<Buffer>, size: nat) {
    forall i :: 0 <= i < |vectors| ==> |vectors[i]| == size
  }

  /**
   One full-screen compositing pass: it reads the running total `front`
   and one light vector `v` and produces `front + weight * v` pixel by pixel.
   The shader itself is not part of this model; this is the behaviour the
   program documents for it.
   */
  function Pass(front: Buffer, weight: RGB, v: Buffer): (out: Buffer)
    requires |front| == |v|
    ensures |out| == |front|
  {
    seq(|front|, p requires 0 <= p < |front| => Add(front[p], Scale(weight, v[p])))
  }

  /** Pixel `p` of the sum over i < |weights| of weights[i] * vectors[i]. */
  function PixelSum(weights: seq<RGB>, vectors: seq<Buffer>, p: nat): RGB
    requires |weights| <= |vectors|
    requires forall i :: 0 <= i < |weights| ==> p < |vectors[i]|
    decreases |weights|
  {
    if |weights| == 0 then Black
    else
      var k := |weights| - 1;
      Add(PixelSum(weights[..k], vectors, p), Scale(weights[k], vectors[k][p]))
  }

  /** The buffer holding, at every pixel, the weighted sum of the first |weights| vectors. */
  function Composite(weights: seq<RGB>, vectors: seq<Buffer>, size: nat): (c: Buffer)
    requires |weights| <= |vectors|
    requires Uniform(vectors, size)
    ensures |c| == size
  {
    seq(size, p requires 0 <= p < size => PixelSum(weights, vectors, p))
  }

  /** With every weight black, the weighted sum is black. */
  lemma {:induction false} PixelSumOfBlack(weights: seq<RGB>, vectors: seq<Buffer>, p: nat)
    requires |weights| <= |vectors|
    requires forall i :: 0 <= i < |weights| ==> p < |vectors[i]|
    requires forall i :: 0 <= i < |weights| ==> weights[i] == Black
    ensures PixelSum(weights, vectors, p) == Black
    decreases |weights|
  {
    if |weights| > 0 {
      var k := |weights| - 1;
      PixelSumOfBlack(weights[..k], vectors, p);
    }
  }

  /** A composite with all weights black is a cleared buffer. */
  lemma CompositeOfBlack(weights: seq<RGB>, vectors: seq<Buffer>, size: nat)
    requires |weights| <= |vectors|
    requires Uniform(vectors, size)
    requires forall i :: 0 <= i < |weights| ==> weights[i] == Black
    ensures Composite(weights, vectors, size) == Blank(size)
  {
    forall p | 0 <= p < size
      ensures Composite(weights, vectors, size)[p] == Black
    {
      PixelSumOfBlack(weights, vectors, p);
    }
  }

  /**
   Replacing weight i by c moves the weighted sum by (c - weights[i]) * vectors[i]:
   the arithmetic fact behind applying only the change of one channel.
   */
  lemma {:induction false} PixelSumReplace(weights: seq<RGB>, vectors: seq<Buffer>, p: nat, i: nat, c: RGB)
    requires |weights| <= |vectors|
    requires forall j :: 0 <= j < |weights| ==> p < |vectors[j]|
    requires i < |weights|
    ensures PixelSum(weights[i := c], vectors, p)
         == Add(PixelSum(weights, vectors, p), Scale(Sub(c, weights[i]), vectors[i][p]))
    decreases |weights|
  {
    var k := |weights| - 1;
    var w' := weights[i := c];
    assert w'[..k] == if i == k then weights[..k] else weights[..k][i := c];
    if i < k {
      PixelSumReplace(weights[..k], vectors, p, i, c);
    }
  }

  /**
   One pass with weight c - weights[i] over vector i turns the composite for
   `weights` into the composite for weights[i := c].
   */
  lemma CompositeReplace(weights: seq<RGB>, vectors: seq<Buffer>, size: nat, i: nat, c: RGB)
    requires |weights| <= |vectors|
    requires Uniform(vectors, size)
    requires i < |weights|
    ensures Pass(Composite(weights, vectors, size), Sub(c, weights[i]), vectors[i])
         == Composite(weights[i := c], vectors, size)
  {
    forall p | 0 <= p < size
      ensures Pass(Composite(weights, vectors, size), Sub(c, weights[i]), vectors[i])[p]
           == Composite(weights[i := c], vectors, size)[p]
    {
      PixelSumReplace(weights, vectors, p, i, c);
    }
  }

  /**
   One pass with weight x over the next vector extends the composite of the
   first |weights| vectors to the first |weights| + 1.
   */
  lemma CompositeExtend(weights: seq<RGB>, vectors: seq<Buffer>, size: nat, x: RGB)
    requires |weights| < |vectors|
    requires Uniform(vectors, size)
    ensures Pass(Composite(weights, vectors, size), x, vectors[|weights|])
         == Composite(weights + [x], vectors, size)
  {
    assert (weights + [x])[..|weights|] == weights;
  }
}

=== FILE: outcomes.dfy ===
/** Failure-carrying values shared by the loading, saving and curve code. */
module Outcomes {

  /** The error kinds the compositing core reports to its driver. */
  datatype Error =
    | EmptyPainting   // Painting.Load on a painting with no images
    | SizeMismatch    // an image whose size differs from the canonical size
    | Unreadable      // the file could not be opened or decoded
    | CreateFailed    // the output file could not be created
    | EncodeFailed    // the JPEG encoder failed

  /** A value or the error that prevented it. */
  datatype Result<+T> = Ok(value: T) | Err(error: Error)

  /** An operation that either completed or failed with an error. */
  datatype Outcome = Success | Failure(error: Error)

  /** A possibly missing value; `None` stands for Go's nil slice or an absent neighbour. */
  datatype Option<+T> = None | Some(value: T)
}

=== FILE: ping_pong.dfy ===
/**
 The full-recompute renderer (render.go). It draws every light vector at its
 intensity into a pair of offscreen buffers used in turn. Pass i reads the
 buffer the previous pass wrote and writes the other one, starting from a
 buffer cleared to black. The drawing itself is the pixel-wise pass of the
 Light module.
 */
module PingPong {
  import opened Light

  /** A light vector together with the intensity it is drawn at. */
  datatype LightVector = LightVector(intensity: RGB, texture: Buffer)

  function Intensities(vectors: seq<LightVector>): (w: seq<RGB>)
    ensures |w| == |vectors|
    ensures forall i :: 0 <= i < |vectors| ==> w[i] == vectors[i].intensity
  {
    seq(|vectors|, i requires 0 <= i < |vectors| => vectors[i].intensity)
  }

  function Textures(vectors: seq<LightVector>): (t: seq<Buffer>)
    ensures |t| == |vectors|
    ensures forall i :: 0 <= i < |vectors| ==> t[i] == vectors[i].texture
  {
    seq(|vectors|, i requires 0 <= i < |vectors| => vectors[i].texture)
  }

  /**
   The two offscreen buffers of a width x height render target. The driver
   leaves their contents undefined. They are filled with black here, and
   Render does not rely on that.
   */
  function FramebufferPair(width: nat, height: nat): (pair: seq<Buffer>)
    ensures |pair| == 2
    ensures forall i :: 0 <= i < |pair| ==> |pair[i]| == width * height
  {
    [Blank(width * height), Blank(width * height)]
  }

  /** The buffer pass i draws into. */
  function WriteIndex(i: nat): (w: nat)
    ensures w < 2
  {
    i % 2
  }

  /** The buffer pass i reads from: the other one, which pass i - 1 wrote. */
  function ReadIndex(i: nat): (r: nat)
    ensures r < 2
    ensures r != WriteIndex(i)
    ensures 0 < i ==> r == WriteIndex(i - 1)
  {
    (i + 1) % 2
  }

  /**
   Clears buffer 1, then runs one pass per light vector, each adding that
   vector scaled by its intensity to what the previous pass produced. The
   result is the buffer the last pass wrote. It holds the sum of every
   vector times its intensity, whatever the buffers held on entry.
   */
  method Render(vectors: seq<LightVector>, framebuffers: seq<Buffer>, size: nat)
    returns (result: Buffer, fbs: seq<Buffer>)
    requires 1 <= |vectors|
    requires |framebuffers| == 2
    requires forall i :: 0 <= i < |framebuffers| ==> |framebuffers[i]| == size
    requires forall i :: 0 <= i < |vectors| ==> |vectors[i].texture| == size
    ensures |fbs| == 2 && result == fbs[WriteIndex(|vectors| - 1)]
    ensures Uniform(Textures(vectors), size)
    ensures result == Composite(Intensities(vectors), Textures(vectors), size)
  {
    var weights := Intensities(vectors);
    var textures := Textures(vectors);
    assert Uniform(textures, size);
    CompositeOfBlack([], textures, size);
    fbs := framebuffers[1 := Blank(size)];
    for i := 0 to |vectors|
      invariant |fbs| == 2
      invariant forall b :: 0 <= b < 2 ==> |fbs[b]| == size
      invariant fbs[ReadIndex(i)] == Composite(weights[..i], textures, size)
    {
      CompositeExtend(weights[..i], textures, size, weights[i]);
      assert weights[..i] + [weights[i]] == weights[..i + 1];
      fbs := fbs[WriteIndex(i) := Pass(fbs[ReadIndex(i)], vectors[i].intensity, vectors[i].texture)];
    }
    assert weights[..|vectors|] == weights;
    result := fbs[WriteIndex(|vectors| - 1)];
  }
}

=== FILE: real_arith.dfy ===
/** Small facts about real arithmetic that the curve proofs use. */
module RealArith {

  /** The identity on reals. */
  function Copy(x: real): real { x }

  /**
   x squared. The second factor is written Copy(x) so that the verifier
   treats x * x as a product of two terms: with the literal x * x it cannot
   show that the square of a positive number is positive.
   */
  function Square(x: real): real { x * Copy(x) }

  function Abs(x: real): real {
    if x < 0.0 then -x else x
  }

  /** i / d: the normalized position of index i when the last index is d. */
  function Ratio(i: int, d: int): real
    requires d != 0
  {
    i as real / d as real
  }

  lemma PositiveProduct(a: real, b: real)
    requires 0.0 < a && 0.0 < b
    ensures 0.0 < a * b
  {}

  lemma NonnegQuotient(a: real, d: real)
    requires 0.0 <= a && 0.0 < d
    ensures 0.0 <= a / d
  {}

  lemma DivideStrict(a: real, b: real, d: real)
    requires a < b
    requires 0.0 < d
    ensures a / d < b / d
  {
    assert a / d * d == a;
    assert b / d * d == b;
  }

  lemma SubDiv(a: real, b: real, d: real)
    requires 0.0 < d
    ensures a / d - b / d == (a - b) / d
  {
    assert a / d * d == a;
    assert b / d * d == b;
    assert (a - b) / d * d == a - b;
  }

  lemma ScaledRatio(r: real, m: real)
    requires 0.0 < r && 0.0 < m
    ensures r / (r * m) == 1.0 / m
  {
    PositiveProduct(r, m);
    assert r / (r * m) * (r * m) == r;
    assert 1.0 / m * m == 1.0;
  }

  lemma ReciprocalShrinks(d: real, m: real)
    requires 0.0 < d < m
    ensures 1.0 / m < 1.0 / d
  {
    assert 1.0 / m * m == 1.0;
    assert 1.0 / d * d == 1.0;
  }

  /** ((k - 1) + 1/m) / (m - 1) is k/(m - 1) less 1/m. */
  lemma ShiftedQuotient(k: real, m: real)
    requires 1.0 < m
    ensures ((k - 1.0) + 1.0 / m) / (m - 1.0) == k / (m - 1.0) - 1.0 / m
  {
    var d := m - 1.0;
    SubDiv(k, 1.0 - 1.0 / m, d);
    assert (1.0 - 1.0 / m) == d / m by {
      assert 1.0 / m * m == 1.0;
      assert d / m * m == d;
    }
    assert d / m / d == 1.0 / m by {
      assert d / m / d * d == d / m;
      assert d / m * m == d;
      assert 1.0 / m * m == 1.0;
    }
  }

  lemma ZeroProduct(x: real, y: real)
    requires x * y == 0.0
    ensures x == 0.0 || y == 0.0
  {}

  /** Non-negative reals with equal squares are equal. */
  lemma SquareInjective(a: real, b: real)
    requires 0.0 <= a && 0.0 <= b
    requires Square(a) == Square(b)
    ensures a == b
  {
    assert (a - b) * (a + b) == Square(a) - Square(b);
    ZeroProduct(a - b, a + b);
  }

  /**
   k * k, defined through k^2 = (k - 1)^2 + 2k - 1. One unfolding is linear,
   so facts about neighbouring squares need no nonlinear reasoning.
   */
  function IntSquare(k: nat): nat {
    if k == 0 then 0 else IntSquare(k - 1) + 2 * k - 1
  }

  lemma {:induction false} IntSquareIsProduct(k: nat)
    ensures IntSquare(k) == k * k
  {
    if k > 0 {
      IntSquareIsProduct(k - 1);
      assert (k - 1) * (k - 1) == k * k - 2 * k + 1;
    }
  }

  lemma {:induction false} IntSquareMonotone(i: nat, k: nat)
    requires i <= k
    ensures IntSquare(i) <= IntSquare(k)
    decreases k - i
  {
    if i < k {
      IntSquareMonotone(i, k - 1);
    }
  }

  lemma SelfQuotient(d: real)
    requires d != 0.0
    ensures d / d == 1.0
  {}

  lemma AddDiv(a: real, b: real, d: real)
    requires 0.0 < d
    ensures a / d + b / d == (a + b) / d
  {
    SubDiv(a + b, b, d);
  }

  /** c * d / d == c. */
  lemma ProductQuotient(c: real, d: real)
    requires 0.0 < d
    ensures c * d / d == c
  {}

  /** Scaling by a factor in [0, 1] stays within [0, d]. */
  lemma UnitScale(c: real, d: real)
    requires 0.0 <= c <= 1.0
    requires 0.0 <= d
    ensures 0.0 <= c * d <= d
  {
    assert c * d <= 1.0 * d;
  }

  lemma QuotientAtMostOne(a: real, d: real)
    requires 0.0 <= a <= d
    requires 0.0 < d
    ensures 0.0 <= a / d <= 1.0
  {
    assert a / d * d == a;
  }

  /** The real square of an integer is its integer square. */
  lemma CastSquare(k: nat)
    ensures IntSquare(k) as real == Square(k as real)
  {
    IntSquareIsProduct(k);
  }

  lemma SquareMonotone(a: real, b: real)
    requires 0.0 <= a && 0.0 <= b
    requires Square(a) < Square(b)
    ensures a < b
  {}

  lemma PositiveSquare(d: real)
    requires 0.0 < d
    ensures 0.0 < Square(d)
  {}

  /** (x*x) / (d*d) is the square of x / d. */
  lemma QuotientSquare(x: real, d: real)
    requires 0.0 < d
    ensures Square(x) / Square(d) == Square(x / d)
  {
    var q := x / d;
    assert x == q * d;
    assert Square(x) == Square(q) * Square(d);
    PositiveSquare(d);
  }

  lemma RatioInUnit(i: int, d: int)
    requires 0 <= i <= d && 0 < d
    ensures 0.0 <= Ratio(i, d) <= 1.0
  {
    assert Ratio(i, d) * d as real == i as real;
  }
}

=== FILE: response_curve.dfy ===
/**
 The camera response curve tables: the squared default Finverse ramp, the
 square-root default F table, the numeric inversion FinverseToF, and the
 linear-interpolated lookup the tone-mapping step applies.

 Table arithmetic is over `real`; the source computes in float64 and stores
 float32.
 */
module ResponseCurve {
  import opened Outcomes
  import opened RealArith

  /** Distance between a target value and a table sample. */
  function Dist(t: real, v: real): real {
    Abs(t - v)
  }

  predicate StrictlyIncreasing(table: seq<real>) {
    forall j :: 0 < j < |table| ==> table[j - 1] < table[j]
  }

  predicate InUnitRange(table: seq<real>) {
    forall j :: 0 <= j < |table| ==> 0.0 <= table[j] <= 1.0
  }

  lemma {:induction false} StrictlyIncreasingPairs(table: seq<real>, j: nat, k: nat)
    requires StrictlyIncreasing(table)
    requires j < k < |table|
    ensures table[j] < table[k]
    decreases k - j
  {
    if j + 1 < k {
      StrictlyIncreasingPairs(table, j, k - 1);
    }
  }

  /**
   i*i / ((n-1)*(n-1)): the squared normalized position of sample i among n.
   The default Finverse entries and the inversion targets are both this value.
   */
  function SquaredStep(i: nat, n: nat): real
    requires 2 <= n
  {
    IntSquare(i) as real / IntSquare(n - 1) as real
  }

  /** The squared step is the square of the linear position i/(n-1). */
  lemma SquaredStepIsSquare(i: nat, n: nat)
    requires 2 <= n
    ensures SquaredStep(i, n) == Square(Ratio(i, n - 1))
  {
    CastSquare(i);
    CastSquare(n - 1);
    QuotientSquare(i as real, (n - 1) as real);
  }

  lemma SquaredStepInUnit(i: nat, n: nat)
    requires i < n
    requires 2 <= n
    ensures 0.0 <= SquaredStep(i, n) <= 1.0
  {
    IntSquareMonotone(i, n - 1);
    QuotientAtMostOne(IntSquare(i) as real, IntSquare(n - 1) as real);
  }

  lemma SquaredStepEnds(n: nat)
    requires 2 <= n
    ensures SquaredStep(0, n) == 0.0
    ensures SquaredStep(n - 1, n) == 1.0
  {
    SelfQuotient(IntSquare(n - 1) as real);
  }

  lemma SquaredStepIncreases(i: nat, n: nat)
    requires 2 <= n
    requires 0 < i
    ensures SquaredStep(i - 1, n) < SquaredStep(i, n)
  {
    DivideStrict(IntSquare(i - 1) as real, IntSquare(i) as real, IntSquare(n - 1) as real);
  }

  /** The rise of the squared ramp from sample j - 1 to sample j is (2j - 1)/(n-1)^2. */
  lemma SquaredRise(j: nat, n: nat)
    requires 2 <= n
    requires 0 < j
    ensures SquaredStep(j, n) - SquaredStep(j - 1, n) == (2 * j - 1) as real / IntSquare(n - 1) as real
  {
    SubDiv(IntSquare(j) as real, IntSquare(j - 1) as real, IntSquare(n - 1) as real);
  }

  /** The default inverse response curve: entry i is (i/(size-1))^2. */
  function SquaredFinverse(size: nat): (table: seq<real>)
    requires size != 1
    ensures |table| == size
    ensures forall i :: 0 <= i < size ==> table[i] == SquaredStep(i, size)
    ensures 2 <= size ==> table[0] == 0.0 && table[size - 1] == 1.0
    ensures StrictlyIncreasing(table)
    ensures InUnitRange(table)
  {
    var table := seq(size, i requires 0 <= i < size => SquaredStep(i, size));
    SquaredTableIncreases(size, table);
    SquaredTableInUnit(size, table);
    table
  }

  /** Entry i of the squared table is the square of i/(size-1). */
  lemma SquaredFinverseIsSquare(size: nat)
    requires 2 <= size
    ensures forall i :: 0 <= i < size ==> SquaredFinverse(size)[i] == Square(Ratio(i, size - 1))
  {
    forall i | 0 <= i < size
      ensures SquaredFinverse(size)[i] == Square(Ratio(i, size - 1))
    {
      SquaredStepIsSquare(i, size);
    }
  }

  lemma SquaredTableIncreases(size: nat, table: seq<real>)
    requires 2 <= size || size == 0
    requires table == seq(size, i requires 0 <= i < size => SquaredStep(i, size))
    ensures StrictlyIncreasing(table)
  {
    forall j | 0 < j < size
      ensures table[j - 1] < table[j]
    {
      SquaredStepIncreases(j, size);
    }
  }

  lemma SquaredTableInUnit(size: nat, table: seq<real>)
    requires 2 <= size || size == 0
    requires table == seq(size, i requires 0 <= i < size => SquaredStep(i, size))
    ensures InUnitRange(table)
    ensures 2 <= size ==> table[0] == 0.0 && table[size - 1] == 1.0
  {
    forall j | 0 <= j < size
      ensures 0.0 <= table[j] <= 1.0
    {
      SquaredStepInUnit(j, size);
    }
    if 2 <= size {
      SquaredStepEnds(size);
    }
  }

  /** `root` is an exact square root on the non-negative reals (Go's math.Sqrt). */
  ghost predicate IsSquareRoot(root: real -> real) {
    forall x: real :: 0.0 <= x ==> 0.0 <= root(x) && Square(root(x)) == x
  }

  /**
   The default forward response table: entry i is the non-negative square
   root of i/(size-1). (The source loop compares an int counter with the
   unsigned size and omits the return; this is the evident intent.)
   */
  function SqrtF(size: nat, root: real -> real): (table: seq<real>)
    requires size != 1
    requires IsSquareRoot(root)
    ensures |table| == size
    ensures forall i :: 0 <= i < size ==> 0.0 <= table[i] && Square(table[i]) == Ratio(i, size - 1)
    ensures 2 <= size ==> table[0] == 0.0 && table[size - 1] == 1.0
    ensures StrictlyIncreasing(table)
  {
    var table := seq(size, i requires 0 <= i < size => root(i as real / (size - 1) as real));
    SqrtTableFacts(size, root, table);
    table
  }

  lemma SqrtTableFacts(size: nat, root: real -> real, table: seq<real>)
    requires size != 1
    requires IsSquareRoot(root)
    requires table == seq(size, i requires 0 <= i < size => root(i as real / (size - 1) as real))
    ensures forall i :: 0 <= i < size ==> 0.0 <= table[i] && Square(table[i]) == Ratio(i, size - 1)
    ensures 2 <= size ==> table[0] == 0.0 && table[size - 1] == 1.0
    ensures StrictlyIncreasing(table)
  {
    forall i | 0 <= i < size
      ensures 0.0 <= table[i] && Square(table[i]) == Ratio(i, size - 1)
    {
      RatioInUnit(i, size - 1);
    }
    if 2 <= size {
      SquareInjective(table[0], 0.0);
      SquareInjective(table[size - 1], 1.0);
    }
    forall j | 0 < j < size
      ensures table[j - 1] < table[j]
    {
      DivideStrict((j - 1) as real, j as real, (size - 1) as real);
      SquareMonotone(table[j - 1], table[j]);
    }
  }

  /**
   The default pair agrees at every sample: F (the square root) maps
   Finverse entry i back to the linear position i/(n-1).
   */
  lemma SqrtInvertsSquared(n: nat, root: real -> real)
    requires 2 <= n
    requires IsSquareRoot(root)
    ensures forall i :: 0 <= i < n ==> root(SquaredFinverse(n)[i]) == Ratio(i, n - 1)
  {
    forall i | 0 <= i < n
      ensures root(SquaredFinverse(n)[i]) == Ratio(i, n - 1)
    {
      var x := SquaredFinverse(n)[i];
      SquaredStepIsSquare(i, n);
      RatioInUnit(i, n - 1);
      SquareInjective(root(x), Ratio(i, n - 1));
    }
  }

  /**
   The scan over the table for the sample nearest to `t`, continued from
   index j with the best sample so far at `a`. A sample replaces the best
   only when strictly closer, so among equally near samples the first wins.
   The float64 sentinel math.MaxFloat64 that starts the scan exceeds every
   finite distance, so sample 0 is always the first best.
   */
  function ScanFrom(table: seq<real>, t: real, j: nat, a: nat): (anchor: nat)
    requires a < j <= |table|
    requires forall k :: 0 <= k < j ==> Dist(t, table[a]) <= Dist(t, table[k])
    requires forall k :: 0 <= k < a ==> Dist(t, table[a]) < Dist(t, table[k])
    ensures anchor < |table|
    ensures forall k :: 0 <= k < |table| ==> Dist(t, table[anchor]) <= Dist(t, table[k])
    ensures forall k :: 0 <= k < anchor ==> Dist(t, table[anchor]) < Dist(t, table[k])
    decreases |table| - j
  {
    if j == |table| then a
    else if Dist(t, table[j]) < Dist(t, table[a]) then ScanFrom(table, t, j + 1, j)
    else ScanFrom(table, t, j + 1, a)
  }

  /** The first index of a sample nearest to `t`. */
  function Nearest(table: seq<real>, t: real): (anchor: nat)
    requires 0 < |table|
    ensures anchor < |table|
    ensures forall k :: 0 <= k < |table| ==> Dist(t, table[anchor]) <= Dist(t, table[k])
    ensures forall k :: 0 <= k < anchor ==> Dist(t, table[anchor]) < Dist(t, table[k])
  {
    ScanFrom(table, t, 1, 0)
  }

  /** On a strictly increasing table, a target equal to sample i is found at i. */
  lemma NearestFindsSample(table: seq<real>, i: nat)
    requires StrictlyIncreasing(table)
    requires i < |table|
    ensures Nearest(table, table[i]) == i
  {
    var a := Nearest(table, table[i]);
    assert Dist(table[i], table[a]) <= Dist(table[i], table[i]);
    if a < i {
      StrictlyIncreasingPairs(table, a, i);
    }
  }

  /** The two adjacent sample indices interpolation uses. */
  datatype Bracket = Bracket(low: nat, high: nat)

  /**
   `x < y` on neighbour distances where a missing neighbour stands for
   math.MaxFloat64: no finite distance reaches it, and it is not below itself.
   */
  function Closer(x: Option<real>, y: Option<real>): bool {
    match x
    case None => false
    case Some(dx) => y.None? || dx < y.value
  }

  /**
   The interval around the anchor sample toward the neighbour closer to `t`;
   on a tie, and at index 0, the interval above.
   */
  function Interval(table: seq<real>, t: real, anchor: nat): (b: Bracket)
    requires 2 <= |table|
    requires anchor < |table|
    ensures b.high == b.low + 1 && b.high < |table|
    ensures b.low == anchor || b.high == anchor
    ensures b.high == anchor <==>
      0 < anchor && (anchor == |table| - 1 || Dist(t, table[anchor - 1]) < Dist(t, table[anchor + 1]))
  {
    var below := if 0 < anchor then Some(Dist(t, table[anchor - 1])) else None;
    var above := if anchor < |table| - 1 then Some(Dist(t, table[anchor + 1])) else None;
    if Closer(below, above) then Bracket(anchor - 1, anchor) else Bracket(anchor, anchor + 1)
  }

  /** Around sample i, the rise above is larger than the rise below. */
  predicate RiseGrowsAt(table: seq<real>, i: nat) {
    0 < i < |table| - 1 ==> table[i] - table[i - 1] < table[i + 1] - table[i]
  }

  /**
   The bracket of a target that equals sample i of a strictly increasing table
   whose rises grow, as the squared ramp's do: (i-1, i), or (0, 1) at i = 0.
   */
  lemma IntervalAtSample(table: seq<real>, i: nat)
    requires 2 <= |table|
    requires StrictlyIncreasing(table)
    requires RiseGrowsAt(table, i)
    requires i < |table|
    ensures Interval(table, table[i], i) == if i == 0 then Bracket(0, 1) else Bracket(i - 1, i)
  {
    if 0 < i < |table| - 1 {
      assert Dist(table[i], table[i - 1]) == table[i] - table[i - 1];
      assert Dist(table[i], table[i + 1]) == table[i + 1] - table[i];
    }
  }

  /** The squared ramp's rises grow: entry i+1 is farther above entry i than entry i above i-1. */
  lemma SquaredRisesGrow(n: nat)
    requires 2 <= n
    ensures forall j :: 0 <= j < n ==> RiseGrowsAt(SquaredFinverse(n), j)
  {
    forall j | 0 <= j < n
      ensures RiseGrowsAt(SquaredFinverse(n), j)
    {
      SquaredRiseGrowsAt(n, j);
    }
  }

  lemma SquaredRiseGrowsAt(n: nat, j: nat)
    requires 2 <= n
    ensures RiseGrowsAt(SquaredFinverse(n), j)
  {
    if 0 < j < n - 1 {
      SquaredRise(j, n);
      SquaredRise(j + 1, n);
      DivideStrict((2 * j - 1) as real, (2 * (j + 1) - 1) as real, IntSquare(n - 1) as real);
    }
  }

  /**
   The fractional index where the line through (low, lo) with slope
   (hi - lo) * slopeScale reaches t.
   */
  function Interpolate(t: real, lo: real, hi: real, low: nat, slopeScale: real): real
    requires lo < hi
    requires 0.0 < slopeScale
  {
    PositiveProduct(hi - lo, slopeScale);
    (t - lo) / ((hi - lo) * slopeScale) + low as real
  }

  lemma InterpolateAtEnds(lo: real, hi: real, low: nat, slopeScale: real)
    requires lo < hi
    requires 0.0 < slopeScale
    ensures Interpolate(lo, lo, hi, low, slopeScale) == low as real
    ensures Interpolate(hi, lo, hi, low, slopeScale) == low as real + 1.0 / slopeScale
  {
    ScaledRatio(hi - lo, slopeScale);
  }

  /**
   Output entry i of the inversion for a given slope scale: the fractional
   index where the table reaches SquaredStep(i, n), interpolated on the
   bracket around the nearest sample, clamped below at 0 and normalized by
   n - 1.
   */
  function InvertedEntry(table: seq<real>, i: nat, slopeScale: real): (y: real)
    requires 2 <= |table|
    requires StrictlyIncreasing(table)
    requires 0.0 < slopeScale
    ensures 0.0 <= y
  {
    var n := |table|;
    var t := SquaredStep(i, n);
    var b := Interval(table, t, Nearest(table, t));
    var inter := Interpolate(t, table[b.low], table[b.high], b.low, slopeScale);
    var clamped := if inter < 0.0 then 0.0 else inter;
    NonnegQuotient(clamped, (n - 1) as real);
    clamped / (n - 1) as real
  }

  /**
   The forward response table derived from an increasing Finverse table, as
   the source computes it: the slope is the bracket's rise times the table
   length.
   */
  function FinverseToF(finverse: seq<real>): (f: seq<real>)
    requires |finverse| != 1
    requires StrictlyIncreasing(finverse)
    ensures |f| == |finverse|
    ensures forall i :: 0 <= i < |f| ==> 0.0 <= f[i]
  {
    seq(|finverse|, i requires 0 <= i < |finverse| => InvertedEntry(finverse, i, |finverse| as real))
  }

  /**
   The same inversion with the slope the interpolation needs: the bracket's
   rise per index step, so that (target - low value) / slope is a fraction of
   one index.
   */
  function FinverseToFCorrected(finverse: seq<real>): (f: seq<real>)
    requires |finverse| != 1
    requires StrictlyIncreasing(finverse)
    ensures |f| == |finverse|
    ensures forall i :: 0 <= i < |f| ==> 0.0 <= f[i]
  {
    seq(|finverse|, i requires 0 <= i < |finverse| => InvertedEntry(finverse, i, 1.0))
  }

  /**
   Inverting a table at one of its own samples: a strictly increasing table
   whose rises grow and whose entry i is the target SquaredStep(i, n). The
   target is found at sample i and bracketed below it (above at i = 0), so the
   entry is ((i - 1) + 1/slopeScale) / (n - 1), and 0 at i = 0.
   */
  lemma InvertedEntryAtSample(table: seq<real>, i: nat, slopeScale: real)
    requires 2 <= |table|
    requires StrictlyIncreasing(table)
    requires RiseGrowsAt(table, i)
    requires i < |table|
    requires table[i] == SquaredStep(i, |table|)
    requires 0.0 < slopeScale
    ensures i == 0 ==> InvertedEntry(table, i, slopeScale) == 0.0
    ensures 0 < i ==> InvertedEntry(table, i, slopeScale)
                      == ((i as real - 1.0) + 1.0 / slopeScale) / (|table| - 1) as real
  {
    var t := SquaredStep(i, |table|);
    NearestFindsSample(table, i);
    IntervalAtSample(table, i);
    if 0 < i {
      InterpolateAtEnds(table[i - 1], table[i], i - 1, slopeScale);
      var inter := Interpolate(t, table[i - 1], table[i], i - 1, slopeScale);
      assert 0.0 <= inter by {
        NonnegQuotient(1.0, slopeScale);
      }
    } else {
      InterpolateAtEnds(table[0], table[1], 0, slopeScale);
    }
  }

  lemma InvertedSquaredEntry(n: nat, i: nat, slopeScale: real)
    requires 2 <= n
    requires i < n
    requires 0.0 < slopeScale
    ensures i == 0 ==> InvertedEntry(SquaredFinverse(n), i, slopeScale) == 0.0
    ensures 0 < i ==> InvertedEntry(SquaredFinverse(n), i, slopeScale)
                      == ((i as real - 1.0) + 1.0 / slopeScale) / (n - 1) as real
  {
    SquaredRiseGrowsAt(n, i);
    InvertedEntryAtSample(SquaredFinverse(n), i, slopeScale);
  }

  /**
   As written, inverting the default squared curve lands exactly 1/n below
   the linear ramp at every entry after the first, which is within one
   sample step 1/(n-1) of it; entry 0 is exactly 0.
   */
  lemma InvertSquaredAsWritten(n: nat)
    requires 2 <= n
    ensures FinverseToF(SquaredFinverse(n))[0] == 0.0
    ensures forall i :: 1 <= i < n ==>
      FinverseToF(SquaredFinverse(n))[i] == Ratio(i, n - 1) - 1.0 / n as real
    ensures forall i :: 0 <= i < n ==>
      Abs(FinverseToF(SquaredFinverse(n))[i] - Ratio(i, n - 1)) < Ratio(1, n - 1)
  {
    AsWrittenFirst(n);
    forall i | 1 <= i < n
      ensures FinverseToF(SquaredFinverse(n))[i] == Ratio(i, n - 1) - 1.0 / n as real
      ensures Abs(FinverseToF(SquaredFinverse(n))[i] - Ratio(i, n - 1)) < Ratio(1, n - 1)
    {
      AsWrittenEntry(n, i);
    }
  }

  lemma AsWrittenFirst(n: nat)
    requires 2 <= n
    ensures FinverseToF(SquaredFinverse(n))[0] == 0.0
    ensures Abs(FinverseToF(SquaredFinverse(n))[0] - Ratio(0, n - 1)) < Ratio(1, n - 1)
  {
    var table := SquaredFinverse(n);
    assert FinverseToF(table)[0] == InvertedEntry(table, 0, n as real);
    InvertedSquaredEntry(n, 0, n as real);
    DivideStrict(0.0, 1.0, (n - 1) as real);
  }

  lemma AsWrittenEntry(n: nat, i: nat)
    requires 2 <= n
    requires 1 <= i < n
    ensures FinverseToF(SquaredFinverse(n))[i] == Ratio(i, n - 1) - 1.0 / n as real
    ensures Abs(FinverseToF(SquaredFinverse(n))[i] - Ratio(i, n - 1)) < Ratio(1, n - 1)
  {
    AsWrittenValue(n, i);
    OneOverBelowRamp(FinverseToF(SquaredFinverse(n))[i], i as real, n as real);
  }

  lemma AsWrittenValue(n: nat, i: nat)
    requires 2 <= n
    requires 1 <= i < n
    ensures FinverseToF(SquaredFinverse(n))[i] == ((i as real - 1.0) + 1.0 / n as real) / (n as real - 1.0)
  {
    var table := SquaredFinverse(n);
    assert FinverseToF(table)[i] == InvertedEntry(table, i, n as real);
    InvertedSquaredEntry(n, i, n as real);
  }

  lemma OneOverBelowRamp(x: real, k: real, m: real)
    requires 1.0 < m
    requires x == ((k - 1.0) + 1.0 / m) / (m - 1.0)
    ensures x == k / (m - 1.0) - 1.0 / m
    ensures Abs(x - k / (m - 1.0)) < 1.0 / (m - 1.0)
  {
    ShiftedQuotient(k, m);
    ReciprocalShrinks(m - 1.0, m);
  }

  /** For n = 3 the middle entry is 1/6 where the linear ramp has 1/2. */
  lemma InvertSquaredThreeSamples()
    ensures FinverseToF(SquaredFinverse(3))[1] == 1.0 / 6.0
    ensures LinearRamp(3)[1] == 1.0 / 2.0
  {
    InvertSquaredAsWritten(3);
  }

  /**
   On the default squared table the inversion as written is strictly
   increasing: 0 first, then i/(n-1) - 1/n, which starts above 0.
   */
  lemma InvertSquaredIncreasing(n: nat)
    requires 2 <= n
    ensures StrictlyIncreasing(FinverseToF(SquaredFinverse(n)))
  {
    forall j | 0 < j < n
      ensures FinverseToF(SquaredFinverse(n))[j - 1] < FinverseToF(SquaredFinverse(n))[j]
    {
      InvertSquaredStep(n, j);
    }
  }

  lemma InvertSquaredStep(n: nat, j: nat)
    requires 2 <= n
    requires 0 < j < n
    ensures FinverseToF(SquaredFinverse(n))[j - 1] < FinverseToF(SquaredFinverse(n))[j]
  {
    var f := FinverseToF(SquaredFinverse(n));
    AsWrittenEntry(n, j);
    if j == 1 {
      AsWrittenFirst(n);
      ShiftedRampStartsAbove(f[1], n);
    } else {
      AsWrittenEntry(n, j - 1);
      ShiftedRampRises(f[j - 1], f[j], j, n);
    }
  }

  /** 1/(n-1) - 1/n is positive. */
  lemma ShiftedRampStartsAbove(b: real, n: nat)
    requires 2 <= n
    requires b == Ratio(1, n - 1) - 1.0 / n as real
    ensures 0.0 < b
  {
    ReciprocalShrinks((n - 1) as real, n as real);
  }

  /** (j-1)/(n-1) - 1/n < j/(n-1) - 1/n. */
  lemma ShiftedRampRises(a: real, b: real, j: nat, n: nat)
    requires 2 <= n
    requires 1 <= j
    requires a == Ratio(j - 1, n - 1) - 1.0 / n as real
    requires b == Ratio(j, n - 1) - 1.0 / n as real
    ensures a < b
  {
    DivideStrict((j - 1) as real, j as real, (n - 1) as real);
  }

  /** A strictly increasing table whose inversion is not monotone. */
  const Kinked: seq<real> := [0.0, 0.01, 0.3, 1.0]

  /**
   The interval test picks the neighbour closer to the target, not the side
   the target lies on. For the target 1/9 the nearest sample is 0.01 at
   index 1; the sample below is nearer than the one above, so the bracket is
   (0, 1) and the line through it is extended past 0.01, although the
   crossing lies between indices 1 and 2. Entry 1 overshoots entry 2, with
   the slope as written and with the corrected slope alike.
   */
  lemma InversionNotMonotone()
    ensures StrictlyIncreasing(Kinked)
    ensures Nearest(Kinked, 1.0 / 9.0) == 1 && Interval(Kinked, 1.0 / 9.0, 1) == Bracket(0, 1)
    ensures Nearest(Kinked, 4.0 / 9.0) == 2 && Interval(Kinked, 4.0 / 9.0, 2) == Bracket(1, 2)
    ensures FinverseToF(Kinked)[1] == 25.0 / 27.0
    ensures FinverseToF(Kinked)[2] == 1435.0 / 3132.0
    ensures FinverseToF(Kinked)[2] < FinverseToF(Kinked)[1]
    ensures FinverseToFCorrected(Kinked)[1] == 100.0 / 27.0
    ensures FinverseToFCorrected(Kinked)[2] == 652.0 / 783.0
    ensures FinverseToFCorrected(Kinked)[2] < FinverseToFCorrected(Kinked)[1]
  {
    var t := Kinked;
    assert SquaredStep(1, 4) == 1.0 / 9.0;
    assert SquaredStep(2, 4) == 4.0 / 9.0;
    assert Nearest(t, 1.0 / 9.0) == 1;
    assert Interval(t, 1.0 / 9.0, 1) == Bracket(0, 1);
    assert Nearest(t, 4.0 / 9.0) == 2;
    assert Interval(t, 4.0 / 9.0, 2) == Bracket(1, 2);
    assert FinverseToF(t)[1] == InvertedEntry(t, 1, 4.0);
    assert FinverseToF(t)[2] == InvertedEntry(t, 2, 4.0);
    assert FinverseToFCorrected(t)[1] == InvertedEntry(t, 1, 1.0);
    assert FinverseToFCorrected(t)[2] == InvertedEntry(t, 2, 1.0);
  }

  /** With the corrected slope, inverting the squared curve gives exactly the linear ramp. */
  lemma InvertSquaredCorrected(n: nat)
    requires 2 <= n
    ensures forall i :: 0 <= i < n ==> FinverseToFCorrected(SquaredFinverse(n))[i] == Ratio(i, n - 1)
  {
    forall i | 0 <= i < n
      ensures FinverseToFCorrected(SquaredFinverse(n))[i] == Ratio(i, n - 1)
    {
      CorrectedEntry(n, i);
    }
  }

  lemma CorrectedEntry(n: nat, i: nat)
    requires 2 <= n
    requires i < n
    ensures FinverseToFCorrected(SquaredFinverse(n))[i] == Ratio(i, n - 1)
  {
    if i == 0 {
      CorrectedFirst(n);
    } else {
      CorrectedValue(n, i);
      UnitShift(i as real, (n - 1) as real);
    }
  }

  lemma CorrectedFirst(n: nat)
    requires 2 <= n
    ensures FinverseToFCorrected(SquaredFinverse(n))[0] == 0.0
  {
    var table := SquaredFinverse(n);
    assert FinverseToFCorrected(table)[0] == InvertedEntry(table, 0, 1.0);
    InvertedSquaredEntry(n, 0, 1.0);
  }

  lemma CorrectedValue(n: nat, i: nat)
    requires 2 <= n
    requires 1 <= i < n
    ensures FinverseToFCorrected(SquaredFinverse(n))[i] == ((i as real - 1.0) + 1.0 / 1.0) / (n as real - 1.0)
  {
    var table := SquaredFinverse(n);
    assert FinverseToFCorrected(table)[i] == InvertedEntry(table, i, 1.0);
    InvertedSquaredEntry(n, i, 1.0);
  }

  lemma UnitShift(k: real, d: real)
    requires 0.0 < d
    ensures ((k - 1.0) + 1.0 / 1.0) / d == k / d
  {}

  /** x clamped to [0, 1]. */
  function Clamp01(x: real): (c: real)
    ensures 0.0 <= c <= 1.0
    ensures 0.0 <= x <= 1.0 ==> c == x
  {
    if x < 0.0 then 0.0 else if 1.0 < x then 1.0 else x
  }

  /** The point a fraction f of the way from a to b. */
  function Lerp(a: real, b: real, f: real): real {
    a + f * (b - a)
  }

  lemma LerpBetween(a: real, b: real, f: real)
    requires 0.0 <= f <= 1.0
    requires 0.0 <= a <= 1.0 && 0.0 <= b <= 1.0
    ensures 0.0 <= Lerp(a, b, f) <= 1.0
  {
    assert Lerp(a, b, f) == (1.0 - f) * a + f * b;
    assert 0.0 <= (1.0 - f) * a <= 1.0 - f;
    assert 0.0 <= f * b <= f;
  }

  /** Where x falls among the samples: the interval index k and the fraction past sample k. */
  datatype Position = Position(k: nat, frac: real)

  function Locate(n: nat, x: real): (p: Position)
    requires 2 <= n
    ensures p.k < n - 1
    ensures 0.0 <= p.frac <= 1.0
    ensures p.k as real + p.frac == Clamp01(x) * (n - 1) as real
  {
    var d := n - 1;
    var pos := Clamp01(x) * d as real;
    UnitScale(Clamp01(x), d as real);
    var k := if d <= pos.Floor then d - 1 else pos.Floor;
    Position(k, pos - k as real)
  }

  /**
   The table read at x in [0, 1] (x is clamped first) by linear
   interpolation between the two samples around x * (n - 1).
   */
  function Lookup(table: seq<real>, x: real): (y: real)
    requires 2 <= |table|
    ensures InUnitRange(table) ==> 0.0 <= y <= 1.0
  {
    var p := Locate(|table|, x);
    var y := Lerp(table[p.k], table[p.k + 1], p.frac);
    if InUnitRange(table) then LerpBetween(table[p.k], table[p.k + 1], p.frac); y else y
  }

  /** At the position of sample k, the lookup returns sample k itself. */
  lemma LookupAtSample(table: seq<real>, k: nat)
    requires 2 <= |table|
    requires k < |table|
    ensures Lookup(table, Ratio(k, |table| - 1)) == table[k]
  {
    var d := |table| - 1;
    RatioInUnit(k, d);
    assert Ratio(k, d) * d as real == k as real;
    var p := Locate(|table|, Ratio(k, d));
    if k == d {
      assert p.k == d - 1 && p.frac == 1.0;
    } else {
      assert (k as real).Floor == k;
      assert p.k == k && p.frac == 0.0;
    }
  }

  /** The identity curve: entry i is i/(n-1). */
  function LinearRamp(n: nat): (table: seq<real>)
    requires 2 <= n
    ensures |table| == n
    ensures InUnitRange(table)
  {
    seq(n, i requires 0 <= i < n => RatioInUnit(i, n - 1); Ratio(i, n - 1))
  }

  /** Looking up through the identity curve only clamps. */
  lemma LookupLinear(n: nat, x: real)
    requires 2 <= n
    ensures Lookup(LinearRamp(n), x) == Clamp01(x)
  {
    var table := LinearRamp(n);
    var p := Locate(n, x);
    var d := (n - 1) as real;
    assert Lookup(table, x) == Lerp(table[p.k], table[p.k + 1], p.frac);
    LerpOnRamp(p.k as real, p.frac, d);
    ProductQuotient(Clamp01(x), d);
  }

  /** Between neighbouring points k/d and (k+1)/d of a ramp, the fraction f lands at (k + f)/d. */
  lemma LerpOnRamp(k: real, f: real, d: real)
    requires 0.0 < d
    ensures Lerp(k / d, (k + 1.0) / d, f) == (k + f) / d
  {
    SubDiv(k + 1.0, k, d);
    assert f * (1.0 / d) == f / d;
    AddDiv(k, f, d);
  }

  /** With the corrected slope, the squared default curve inverts to the identity curve. */
  lemma CorrectedInverseIsLinear(n: nat)
    requires 2 <= n
    ensures FinverseToFCorrected(SquaredFinverse(n)) == LinearRamp(n)
  {
    InvertSquaredCorrected(n);
  }
}
